=== FILE: README.md ===
# Script launcher extension: a Dafny model

This project models the core of a GNOME Shell extension that shows a top-panel
menu of the shell scripts in a configured directory and runs the one you pick.
The core lives in `extension.js`. The model covers these parts of it:

- **The script catalogue** (`_getScripts`). It keeps the regular files whose names
  end in `.sh` and sorts them by name.
- **The menu entries** (`_fillMenu`). Each entry gets a base name, a display name
  and an icon. The icon comes from the first of these that applies: a sibling
  `.svg`, a sibling `.png`, the file's content-type icon, the configured default
  icon, or `pan-end-symbolic`.
- **The search filter** (`_filterMenu`). It does a case-insensitive substring test.
- **The debounced refresh.** `_setupFileMonitor` and `disable` share one slot that
  holds the pending 500 ms timeout.
- **What a finished launch produces** (`_launchScript`, `_appendLog`): the
  notification texts, the log path and the log record.
- **The top-panel icon** (`_getIcon`).

The modules are:

- `Wrappers`: `Option`.
- `Strings`: the JavaScript string operations the code uses.
- `Collation`: the order `localeCompare` sorts by.
- `Config`: the settings record.
- `Catalogue`: `_getScripts`.
- `Menu`: `_fillMenu` and `_filterMenu`.
- `Debounce`: the timer slot, as a state machine over events.
- `Launch`: the notification and log texts.
- `TopIcon`: `_getIcon`.

The filesystem is an oracle. It says which paths exist and what enumerating a
directory yields. Widgets are replaced by the records they are built from. Time
is abstract: a timeout firing is an event.

## A missing directory is an error

A configured directory that does not exist is an error, not an empty list.
`_getScripts` returns `undefined` (extension.js:168-170), and `_fillMenu`, which
has already emptied the list (extension.js:102-103), throws a `TypeError` when it
calls `.forEach` on that value (extension.js:114). `Menu.FillMenu` ends with the
failure `MissingDirectory` and no entries. The slot finding below is a
consequence of that exception.

## Model

| member | source | states |
|---|---|---|
| Strings.StripSuffix | extension.js:116 | A trailing `.sh` is removed exactly when the name ends with it, and the result plus the suffix gives back the name. Otherwise the name is unchanged. |
| Strings.Includes | extension.js:161 | `includes` is true exactly when the pattern occurs at some index of the text. |
| Strings.ReplaceFirst | extension.js:227 | A string pattern replaces only its leftmost occurrence. Text without the pattern is unchanged. |
| Strings.Lower | extension.js:158-161 | Lower-casing keeps the length and leaves no ASCII capital in the result. A text without capitals is returned unchanged. |
| Strings.LowerIdempotent | extension.js:158-161 | Lower-casing twice is the same as lower-casing once. |
| Strings.Trim | extension.js:242 | `trim()` is a slice of the name with only whitespace before and after it, and it neither starts nor ends with whitespace. |
| Strings.TrimEmptyIffBlank | extension.js:242 | `trim()` is empty exactly when every character is JavaScript whitespace. |
| Strings.IntToString | extension.js:214 | `${n}` starts with `-` exactly when `n` is negative, and is otherwise made of decimal digits, at least one of them, with no leading zero except in `0` itself. |
| Strings.IntToStringRoundTrip | extension.js:214 | The decimal rendering of any integer, negative ones included, parses back to that integer. |
| Collation.KeyLessTotal | extension.js:194 | Any two distinct collation keys are ordered one way or the other. |
| Collation.KeyLeTransitive | extension.js:194 | The sort comparator's "may precede" relation is transitive. |
| Collation.KeyLeAntisymmetric | extension.js:194 | Two names that may each precede the other have the same collation key. |
| Catalogue.Select | extension.js:179-191 | The loop keeps each entry that is a regular file ending in `.sh`, with its multiplicity, and drops every other entry. |
| Catalogue.Insert | extension.js:194 | Inserting into a sorted list keeps it sorted, and adds exactly the one entry. |
| Catalogue.SortByName | extension.js:194 | The sorted list is in non-decreasing name order and is a permutation of its input. |
| Catalogue.GetScripts | extension.js:166-196 | A missing directory gives `undefined`, not an empty list. A failed enumeration raises. Otherwise the result holds every script of the listing, and nothing else, in name order. |
| Catalogue.SortedPermutationUnique | extension.js:194 | Two name-sorted arrangements of the same entries with distinct keys are equal. |
| Catalogue.ScanIsTheSortedScriptList | extension.js:166-196 | When the scripts have distinct collation keys, any name-sorted list that holds exactly the directory's scripts is the catalogue. |
| Menu.BaseName | extension.js:116 | The base name plus `.sh` is the script name when the name ends in `.sh`. Otherwise the base name is the whole name. |
| Menu.LastDot | extension.js:135 | The result is the index of a dot with no dot after it. "None" means the name has no dot. |
| Menu.StripExtension | extension.js:135 | When a final `.ext` (a dot, at least one non-dot character, then the end) matches, the result is the text before that dot. Otherwise the result is the name unchanged. |
| Menu.DisplayName | extension.js:134-136 | Without `strip` the label is the script name. With `strip` it is the name without its last extension. |
| Menu.StrippedScriptNameIsBaseName | extension.js:116-136 | For a `.sh` script, the stripped label equals the base name, and dots earlier in the name are kept. |
| Menu.DisplayNameExamples | extension.js:134-136 | `deploy.sh` shows as `deploy`. `backup.tar.sh` shows as `backup.tar` with `strip` and unchanged without it. |
| Menu.SvgAndPngPathsDiffer | extension.js:120-121 | The `.svg` and `.png` candidate paths of a script are never the same path. |
| Menu.ScriptIcon | extension.js:118-132 | It is the svg image iff that file exists. It is the png image iff the svg is missing and the png exists. It is the content-type icon iff both are missing and `shebang-icon` is set. It is a themed icon iff none of those applies, and then it is the default icon, or `pan-end-symbolic` when the default is empty. |
| Menu.FirstApplicable | extension.js:129-132 | The chosen icon is the icon of the first rung that applies, or the fallback when no rung applies. |
| Menu.ScriptIconFollowsLadder | extension.js:118-132 | The icon is the first applicable rung of svg > png > content-type > default icon, with `pan-end-symbolic` as the fallback. |
| Menu.FillMenu | extension.js:101-155 | An empty path gives an empty menu and no error. A missing directory throws after the list is emptied. A failed enumeration throws after the list is emptied. Otherwise there is one visible entry per script, in catalogue order, with that script's label and icon. The path in use is recorded. |
| Menu.FilledEntriesAreScripts | extension.js:114-155 | Every entry of a successful fill names a regular `.sh` file of the directory. |
| Menu.EveryScriptIsFilled | extension.js:114-155 | Every regular `.sh` file of the directory has an entry in a successful fill. |
| Menu.FilledEntriesInNameOrder | extension.js:114-155 | The entries of a successful fill are in collation order of their script names. |
| Menu.FilterMenu | extension.js:157-164 | Each entry's visibility is set to whether its lower-cased label contains the lower-cased query. Nothing else about the entries changes, and none is added or removed. |
| Menu.EmptyQueryShowsAll | extension.js:157-164 | An empty search shows every entry. |
| Menu.LatestQueryDecides | extension.js:157-164 | Filtering twice equals filtering once with the later query. |
| Menu.QueryCaseIgnored | extension.js:158 | A query and its lower-cased form filter alike. |
| Menu.RefiningHides | extension.js:157-164 | An entry that matches a query also matches any query that query contains. |
| Menu.FilterExample | extension.js:157-164 | `dep` shows `deploy` and hides `backup` and `report`. |
| Debounce.RemoveSource | extension.js:87-89 | Removing a source unschedules it. Removing an id that is not scheduled counts as a stray removal. Nothing else changes. |
| Debounce.Step | extension.js:62-99 | Only a timeout that is still scheduled runs a refresh, and only a change on a watched directory schedules one, in the slot, with a fresh id. A returning refresh clears the slot and a throwing one leaves it. Reconfiguring the path leaves the slot and the schedule alone. `disable` (extension.js:379-386) empties the slot and drops the monitor. |
| Debounce.InitialInv | extension.js:43 | The initial state, with an empty slot and nothing scheduled, satisfies the slot invariant. |
| Debounce.StepKeepsInv | extension.js:62-99 | Every event preserves the invariant that each scheduled timeout is the one held in the slot. |
| Debounce.AtMostOneTimer | extension.js:85-94 | Under the invariant, at most one refresh timeout is scheduled, and it is the one in the slot. |
| Debounce.RunKeepsInv | extension.js:62-99 | Over any sequence of events, at most one refresh timeout is ever scheduled. |
| Debounce.ChangeReplacesTimer | extension.js:85-90 | A change removes the pending timeout and schedules a single fresh one. |
| Debounce.SlotClearedOnlyByFireOrDisable | extension.js:90-93 | A full slot is emptied only by its timeout firing or by `disable`. |
| Debounce.PathConfiguredKeepsSlot | extension.js:62-83 | Reconfiguring the path watches the new directory only if the path is non-empty, the directory exists and monitoring succeeds, and drops the monitor otherwise. It leaves the slot and the schedule alone. |
| Debounce.DisableStopsRefreshes | extension.js:377-388 | After `disable`, nothing is watched or scheduled, and no later change or timer does anything. |
| Debounce.BurstLeavesOneTimer | extension.js:85-94 | A burst of changes leaves exactly one timeout, the one in the slot, and runs no refresh. |
| Debounce.BurstRefreshesOnce | extension.js:85-94 | After a burst, the timeout firing runs exactly one refresh and leaves nothing to fire. If the refresh returns, the slot is cleared. |
| Debounce.RefreshesBoundedByChanges | extension.js:85-94 | Over any run, refreshes never outnumber change notifications. |
| Debounce.StepCost | extension.js:85-94 | Only a change can raise the count of refreshes plus scheduled timeouts, and by at most one. |
| Debounce.StaleSlotAfterFailedRefresh | extension.js:89-93 | As written, a refresh that throws leaves a removed timeout's id in the slot, and `disable` then removes an id that no longer exists. |
| Debounce.GuardedStepKeepsSlotExact | extension.js:85-94 | With the slot cleared before the refresh runs, the slot holds exactly the scheduled timeout after every event, and no removal is stray. |
| Debounce.GuardedRunHasNoStrayRemovals | extension.js:85-94 | With the correction, no sequence of events ever removes a timeout that does not exist. |
| Launch.Command | extension.js:200 | The argument vector is the one path `<dir>/<script>`, with no arguments: `dir`, a slash and the script name, and nothing else. |
| Launch.CompletionText | extension.js:209-216 | The text is the `[script]: ` tag followed by the output if there is any, else the error output, else `completed with exit code: N`. |
| Launch.ExitStatusReadBack | extension.js:214 | When the process printed nothing, the exit status parses back from the notification text. |
| Launch.CompletionExamples | extension.js:209-216 | Output wins over error output, and error output is shown when there is no output. |
| Launch.SpawnFailureText | extension.js:224-228 | The text is the tag plus the error text with its first `GLib.SpawnError: ` cut out. Error text without it is shown whole. |
| Launch.SpawnFailureShowsMessage | extension.js:224-228 | A spawn error rendered as `GLib.SpawnError: msg` is shown as `[script]: msg`. |
| Launch.LogPath | extension.js:50 | The log is `<home>/.<extension name>.log`: the home directory, `/.`, the extension's name and `.log`. |
| Launch.LogRecord | extension.js:56-58 | The record starts with `\n[script]: date\nSTDOUT:\n`, then has the output, and ends with `STDERR:\n` and the error output. It is 22 characters longer than its four fields together. |
| Launch.HeaderRoundTrip | extension.js:56 | The header line `\n[script]: date\n` reads back to its script and date when the script has no `]` and the date has no newline. |
| Launch.LogBodyRoundTrip | extension.js:57-58 | The `STDOUT:` and `STDERR:` blocks read back to the two outputs when the output has no `STDERR:\n` in it. |
| Launch.LogRecordRoundTrip | extension.js:49-60 | A whole log record reads back to the script, date, output and error output it was written from, when the script name has no `]`, the date no newline and the output no `STDERR:\n`. |
| Launch.LaunchEffects | extension.js:198-230 | A spawn failure always notifies and never logs. A failed read does neither. A finished run notifies only with `notify` on, and logs the record to the log path only with `log` on, both read at completion. Once `disable()` has dropped the settings (extension.js:418), a finished run does neither. The title is the extension's name. |
| Launch.CompletionAfterDisableIsLost | extension.js:205-207 | A process that finishes after `disable()` produces no notification and no log record. |
| TopIcon.GetIcon | extension.js:233-262 | The icon is the terminal icon unless settings are loaded, the feature is on and the name is not blank. Then a file-like name (starts with `/`, or ends with `.svg` or `.png`) is loaded from its file iff that file exists, and otherwise the terminal icon stays. Any other name is used as a themed name. |
| TopIcon.BlankNameKeepsDefault | extension.js:242 | A name made only of whitespace keeps the terminal icon. |
| TopIcon.ThemedNameUsedUntrimmed | extension.js:242-253 | With `use-custom-top-icon` on, a non-blank name that does not look like a file is used as a themed name as configured, surrounding whitespace included. |
| TopIcon.MissingIconFileFallsBack | extension.js:244-250 | Any non-blank file-like name whose file is missing keeps the terminal icon. |
| TopIcon.ExistingIconFileIsUsed | extension.js:244-249 | With `use-custom-top-icon` on, any non-blank file-like name whose file exists is loaded from that file. |

## Findings

| source | as written | input that shows it | evidently intended | confidence | as-written member | corrected member |
|---|---|---|---|---|---|---|
| extension.js:89-93 | The timeout callback clears `this._refreshTimeout` only after `_fillMenu()` returns. When `_fillMenu` throws, GLib still removes the source, but the slot keeps its id. The next change or `disable()` then calls `GLib.source_remove` on an id that no longer exists. | Watch an existing directory, delete it, then change it. The timeout fires and `_fillMenu` throws on `undefined.forEach`. A later `disable()` removes source 1, which is gone. | Clear the slot whenever the timeout has fired, before or regardless of `_fillMenu`. | not executed; medium: relies on GJS removing a source whose callback throws | Debounce.StaleSlotAfterFailedRefresh | Debounce.GuardedRunHasNoStrayRemovals |

`Debounce.StepGuarded` is the corrected transition. It differs from `Debounce.Step`
only when a refresh throws. So every invariant lemma about `Step`, with
`refreshRaised` false, also describes the corrected code.

## Left out

- Widgets, `ScrollableMenu` and its shell-version check, `_addIndicator`, `_updateTopIcon` and `enable`'s signal wiring: these are presentation and wiring, with no logic beyond the calls they make.
- The menu's `open-state-changed` handler: it runs `_fillMenu`, clears the search and grabs focus on a timer. The model has `Menu.FillMenu` and `Menu.FilterMenu` but does not sequence them.
- Strings.Lower: `toLowerCase` is modelled for the ASCII letters only. Full Unicode case mapping, which can change the length of a text, is not modelled. Menu.FilterMenu inherits this.
- Catalogue.SortByName: `localeCompare` is modelled as comparing collation keys supplied by a parameter. The locale's collation tables are not modelled.
- Catalogue.SortByName: the order of two scripts whose names collate level is not stated, and neither is whether the sort is stable. The catalogue is proved unique only when the scripts' keys are distinct.
- Catalogue.GetScripts: Gio enumeration order, attribute queries and `enumerator.close` are an oracle or are not modelled. A symbolic link is reported by the oracle with the type of its target.
- Menu.ScriptIcon: `get_path()` canonicalisation of the image paths is not modelled. The path is the string `<dir>/<base>.<ext>`.
- TopIcon.GetIcon: `Gio.icon_new_for_string` is not modelled, and neither is a relative file-like name being resolved against the working directory. The `try`/`catch` around the lookup has no effect in the model, because nothing in it can throw.
- Process spawning, `communicate_utf8_async` and the exit status: these are an input (`Launch.RunOutcome`).
- Notifications and log-file I/O: these are outputs (`Launch.Effects`). The date is an input string, and `TextEncoder` is not modelled.
- Real timer durations and Gio file monitors: a timeout firing and a `changed` signal are events of `Debounce.Step`.
- The search text is not re-applied after a refresh. `_fillMenu` makes every item visible again, which `Menu.FillMenu` states. Sequencing a refresh with a search is not modelled.
- `prefs.js` (the preferences window) is not part of this model.

=== FILE: catalogue.dfy ===
/** The script catalogue (`_getScripts`, extension.js:166-196): the regular files
    of the configured directory whose names end in `.sh`, sorted by name. The
    filesystem is an oracle: which paths exist, and what enumerating a path
    yields. */
module Catalogue {

  import opened Strings
  import opened Collation

  const ScriptSuffix := ".sh"

  /** `Gio.FileType`. Enumeration follows symbolic links, so a link to a regular
      file is reported as `Regular`. */
  datatype FileType = Unknown | Regular | Directory | SymbolicLink | Special | Shortcut | Mountable

  /** One `Gio.FileInfo` returned by the directory enumerator. */
  datatype DirEntry = DirEntry(name: string, fileType: FileType)

  /** What enumerating a path yields: every child in enumeration order, or an
      error raised by `enumerate_children` or `next_file`. */
  datatype Enumeration = Listed(entries: seq<DirEntry>) | Failed

  /** The filesystem as seen by `query_exists` and `enumerate_children`. */
  datatype FileSystem = FileSystem(existing: set<string>, enumerations: map<string, Enumeration>)

  /** Enumerating a path that is not a listable directory raises. */
  function Enumerate(fs: FileSystem, path: string): Enumeration {
    if path in fs.enumerations then fs.enumerations[path] else Failed
  }

  /** What `_getScripts` hands back: `undefined` for a missing directory, an
      exception escaping from the enumeration, or the sorted script list. */
  datatype ScanResult = Undefined | Raised | Scripts(entries: seq<DirEntry>)

  /** The filter inside the enumeration loop (extension.js:188). */
  predicate IsScript(e: DirEntry) {
    e.fileType == Regular && EndsWith(e.name, ScriptSuffix)
  }

  /** The entries kept by the enumeration loop. */
  function Select(entries: seq<DirEntry>): (r: seq<DirEntry>)
    ensures forall e :: multiset(r)[e] == if IsScript(e) then multiset(entries)[e] else 0
  {
    if |entries| == 0 then []
    else
      assert entries == [entries[0]] + entries[1..];
      if IsScript(entries[0]) then [entries[0]] + Select(entries[1..])
      else Select(entries[1..])
  }

  /** Names in non-decreasing collation order. */
  ghost predicate SortedByName(s: seq<DirEntry>, key: string -> seq<int>) {
    forall i, j :: 0 <= i < j < |s| ==> KeyLe(key(s[i].name), key(s[j].name))
  }

  /** The first entry of a sorted list is no greater than any of its entries. */
  lemma HeadIsLeast(s: seq<DirEntry>, key: string -> seq<int>)
    requires |s| > 0 && SortedByName(s, key)
    ensures forall e :: e in s ==> KeyLe(key(s[0].name), key(e.name))
  {
    KeyLeReflexive(key(s[0].name));
  }

  lemma PrependLeast(y: DirEntry, s: seq<DirEntry>, key: string -> seq<int>)
    requires SortedByName(s, key)
    requires forall e :: e in s ==> KeyLe(key(y.name), key(e.name))
    ensures SortedByName([y] + s, key)
  {
    var t := [y] + s;
    forall i, j | 0 <= i < j < |t|
      ensures KeyLe(key(t[i].name), key(t[j].name))
    {
      if i > 0 {
        assert t[i] == s[i - 1] && t[j] == s[j - 1];
      } else {
        assert t[j] in s;
      }
    }
  }

  /** Inserts `x` before the first entry it does not sort after. */
  function Insert(x: DirEntry, s: seq<DirEntry>, key: string -> seq<int>): (r: seq<DirEntry>)
    requires SortedByName(s, key)
    ensures SortedByName(r, key)
    ensures multiset(r) == multiset(s) + multiset{x}
  {
    if |s| == 0 then [x]
    else if KeyLe(key(x.name), key(s[0].name)) then
      HeadIsLeast(s, key);
      assert forall e :: e in s ==> KeyLe(key(x.name), key(e.name)) by {
        forall e | e in s
          ensures KeyLe(key(x.name), key(e.name))
        {
          KeyLeTransitive(key(x.name), key(s[0].name), key(e.name));
        }
      }
      PrependLeast(x, s, key);
      [x] + s
    else
      assert s == [s[0]] + s[1..];
      var rest := Insert(x, s[1..], key);
      KeyLessAsymmetric(key(s[0].name), key(x.name));
      HeadIsLeast(s, key);
      assert forall e :: e in rest ==> KeyLe(key(s[0].name), key(e.name)) by {
        forall e | e in rest
          ensures KeyLe(key(s[0].name), key(e.name))
        {
          assert e in multiset(rest);
          assert e == x || e in s;
        }
      }
      PrependLeast(s[0], rest, key);
      [s[0]] + rest
  }

  /** Insertion sort by name. */
  function SortByName(s: seq<DirEntry>, key: string -> seq<int>): (r: seq<DirEntry>)
    ensures SortedByName(r, key)
    ensures multiset(r) == multiset(s)
  {
    if |s| == 0 then []
    else
      assert s == [s[0]] + s[1..];
      Insert(s[0], SortByName(s[1..], key), key)
  }

  /** `_getScripts(path)`. */
  function GetScripts(fs: FileSystem, path: string, key: string -> seq<int>): (r: ScanResult)
    ensures r.Undefined? <==> path !in fs.existing
    ensures r.Raised? <==> path in fs.existing && Enumerate(fs, path).Failed?
    ensures r.Scripts? ==> SortedByName(r.entries, key)
    ensures r.Scripts? ==>
              forall e :: multiset(r.entries)[e] ==
                if IsScript(e) then multiset(Enumerate(fs, path).entries)[e] else 0
  {
    if path !in fs.existing then Undefined
    else match Enumerate(fs, path)
      case Failed => Raised
      case Listed(entries) => Scripts(SortByName(Select(entries), key))
  }

  /** No two distinct entries share a collation key (file names are unique within a
      directory, and a collation that tells every two names apart). */
  ghost predicate DistinctKeys(s: seq<DirEntry>, key: string -> seq<int>) {
    forall i, j :: 0 <= i < |s| && 0 <= j < |s| && key(s[i].name) == key(s[j].name) ==> s[i] == s[j]
  }

  /** Two sorted arrangements of the same entries with distinct keys start alike. */
  lemma HeadsAgree(a: seq<DirEntry>, b: seq<DirEntry>, key: string -> seq<int>)
    requires |a| > 0 && |b| > 0
    requires SortedByName(a, key) && SortedByName(b, key)
    requires multiset(a) == multiset(b)
    requires DistinctKeys(a, key)
    ensures a[0] == b[0]
  {
    assert a[0] in multiset(b) && b[0] in multiset(a);
    HeadIsLeast(a, key);
    HeadIsLeast(b, key);
    KeyLeAntisymmetric(key(a[0].name), key(b[0].name));
    var i :| 0 <= i < |a| && a[i] == b[0];
  }

  lemma TailKeepsOrder(a: seq<DirEntry>, key: string -> seq<int>)
    requires |a| > 0 && SortedByName(a, key) && DistinctKeys(a, key)
    ensures SortedByName(a[1..], key) && DistinctKeys(a[1..], key)
  {
  }

  lemma TailMultiset(a: seq<DirEntry>, b: seq<DirEntry>)
    requires |a| > 0 && |b| > 0 && a[0] == b[0] && multiset(a) == multiset(b)
    ensures multiset(a[1..]) == multiset(b[1..])
  {
    assert a == [a[0]] + a[1..] && b == [b[0]] + b[1..];
    assert multiset(a) == multiset{a[0]} + multiset(a[1..]);
    assert multiset(b) == multiset{b[0]} + multiset(b[1..]);
    assert multiset(a[1..]) == multiset(a) - multiset{a[0]};
    assert multiset(b[1..]) == multiset(b) - multiset{b[0]};
  }

  /** A sorted arrangement of a multiset of entries with distinct keys is unique. */
  lemma {:induction false} SortedPermutationUnique(a: seq<DirEntry>, b: seq<DirEntry>, key: string -> seq<int>)
    requires SortedByName(a, key) && SortedByName(b, key)
    requires multiset(a) == multiset(b)
    requires DistinctKeys(a, key)
    ensures a == b
    decreases |a|
  {
    assert |a| == |multiset(a)| == |multiset(b)| == |b|;
    if |a| > 0 {
      HeadsAgree(a, b, key);
      TailKeepsOrder(a, key);
      TailKeepsOrder(b, key) by {
        forall i, j | 0 <= i < |b| && 0 <= j < |b| && key(b[i].name) == key(b[j].name)
          ensures b[i] == b[j]
        {
          assert b[i] in multiset(a) && b[j] in multiset(a);
        }
      }
      TailMultiset(a, b);
      SortedPermutationUnique(a[1..], b[1..], key);
      assert a == [a[0]] + a[1..] && b == [b[0]] + b[1..];
    }
  }

  /** The catalogue is the one sorted arrangement of the directory's scripts:
      any other list holding exactly the same scripts in name order is equal to
      it. */
  lemma ScanIsTheSortedScriptList(fs: FileSystem, path: string, key: string -> seq<int>, other: seq<DirEntry>)
    requires GetScripts(fs, path, key).Scripts?
    requires DistinctKeys(Select(Enumerate(fs, path).entries), key)
    requires SortedByName(other, key)
    requires forall e :: multiset(other)[e] ==
               if IsScript(e) then multiset(Enumerate(fs, path).entries)[e] else 0
    ensures other == GetScripts(fs, path, key).entries
  {
    var r := GetScripts(fs, path, key).entries;
    var listing := Select(Enumerate(fs, path).entries);
    assert multiset(other) == multiset(r);
    forall i, j | 0 <= i < |r| && 0 <= j < |r| && key(r[i].name) == key(r[j].name)
      ensures r[i] == r[j]
    {
      assert r[i] in multiset(r) && r[j] in multiset(r);
      assert r[i] in multiset(listing) && r[j] in multiset(listing);
    }
    SortedPermutationUnique(r, other, key);
  }
}

=== FILE: collation.dfy ===
/** The order in which the catalogue is sorted. `String.prototype.localeCompare`
    compares two names by their collation keys; the keys themselves come from the
    locale service and are a parameter of the model (`key: string -> seq<int>`).
    Keys are compared lexicographically, a shorter key that is a prefix of a
    longer one sorting first. */
module Collation {

  /** Strict lexicographic order on collation keys. */
  predicate KeyLess(a: seq<int>, b: seq<int>)
    decreases |a|
  {
    if |a| == 0 then |b| > 0
    else if |b| == 0 then false
    else if a[0] != b[0] then a[0] < b[0]
    else KeyLess(a[1..], b[1..])
  }

  lemma {:induction false} KeyLessIrreflexive(a: seq<int>)
    ensures !KeyLess(a, a)
    decreases |a|
  {
    if |a| > 0 {
      KeyLessIrreflexive(a[1..]);
    }
  }

  lemma {:induction false} KeyLessAsymmetric(a: seq<int>, b: seq<int>)
    ensures KeyLess(a, b) ==> !KeyLess(b, a)
    decreases |a|
  {
    if |a| > 0 && |b| > 0 && a[0] == b[0] {
      KeyLessAsymmetric(a[1..], b[1..]);
    }
  }

  lemma {:induction false} KeyLessTransitive(a: seq<int>, b: seq<int>, c: seq<int>)
    ensures KeyLess(a, b) && KeyLess(b, c) ==> KeyLess(a, c)
    decreases |a|
  {
    if |a| > 0 && |b| > 0 && |c| > 0 && a[0] == b[0] && b[0] == c[0] {
      KeyLessTransitive(a[1..], b[1..], c[1..]);
    }
  }

  /** Any two distinct keys are ordered one way or the other. */
  lemma {:induction false} KeyLessTotal(a: seq<int>, b: seq<int>)
    ensures a == b || KeyLess(a, b) || KeyLess(b, a)
    decreases |a|
  {
    if |a| > 0 && |b| > 0 && a[0] == b[0] {
      KeyLessTotal(a[1..], b[1..]);
      if a[1..] == b[1..] {
        assert a == [a[0]] + a[1..] && b == [b[0]] + b[1..];
      }
    }
  }

  /** `localeCompare(a, b) <= 0`: `a` may be placed before `b`. */
  predicate KeyLe(a: seq<int>, b: seq<int>) {
    !KeyLess(b, a)
  }

  lemma KeyLeReflexive(a: seq<int>)
    ensures KeyLe(a, a)
  {
    KeyLessIrreflexive(a);
  }

  lemma KeyLeTransitive(a: seq<int>, b: seq<int>, c: seq<int>)
    ensures KeyLe(a, b) && KeyLe(b, c) ==> KeyLe(a, c)
  {
    KeyLessTotal(a, b);
    KeyLessTransitive(c, a, b);
  }

  /** Two keys ordered both ways are equal. */
  lemma KeyLeAntisymmetric(a: seq<int>, b: seq<int>)
    ensures KeyLe(a, b) && KeyLe(b, a) ==> a == b
  {
    KeyLessTotal(a, b);
  }
}

=== FILE: config.dfy ===
/** The extension's persisted configuration, read at the moment of each scan, launch
    or icon update. Key names are those of the extension's settings schema. */
module Config {

  datatype Settings = Settings(
    path: string,               // "path": the scripts directory
    strip: bool,                // "strip": hide the last file extension
    shebangIcon: bool,          // "shebang-icon": use the file's content-type icon
    defaultIcon: string,        // "default-icon": themed icon name for plain scripts
    notify: bool,               // "notify": notify on completion
    log: bool,                  // "log": append a record to the log file
    useCustomTopIcon: bool,     // "use-custom-top-icon"
    topIconName: string         // "top-icon-name": themed name or icon file path
  )
}

=== FILE: debounce.dfy ===
/** The debounced directory refresh: the `changed` handler installed by
    `_setupFileMonitor` (extension.js:62-99) keeps a single slot,
    `this._refreshTimeout`, holding the id of the pending 500 ms GLib timeout;
    each change removes the pending timeout and schedules a new one, the timeout
    runs `_fillMenu` once, and `disable` (extension.js:377-388) removes whatever
    the slot holds. Time is abstract: a timeout firing is an event. */
module Debounce {

  import opened Wrappers

  /** The watcher part of the extension's state, together with the GLib main
      loop's view of the timeout sources. */
  datatype Watcher = Watcher(
    monitor: Option<string>,  // `this._fileMonitor`: the directory being watched, if any
    pending: Option<nat>,     // `this._refreshTimeout`: the source id held in the slot
    live: set<nat>,           // timeout sources scheduled and not yet removed
    nextId: nat,              // the id GLib hands out next (ids are never 0)
    refreshes: nat,           // how many times a timeout ran `_fillMenu`
    strayRemovals: nat        // `GLib.source_remove` calls on an id no longer scheduled
  )

  datatype Event =
      /** `_setupFileMonitor()`: on enable and on `changed::path`. `dirExists` is the
          answer of `query_exists`, `monitorOk` whether `monitor_directory` succeeded. */
    | PathConfigured(path: string, dirExists: bool, monitorOk: bool)
      /** The monitor's `changed` signal. */
    | Changed
      /** The main loop dispatches timeout `id`; `refreshRaised` says whether the
          `_fillMenu` it runs ended with an exception (`Menu.FillMenu`'s failure). */
    | Fire(id: nat, refreshRaised: bool)
      /** `disable()`. */
    | Disable

  const Initial := Watcher(None, None, {}, 1, 0, 0)

  /** `GLib.source_remove(id)`. Removing an id that is not scheduled only logs a
      critical warning. */
  function RemoveSource(w: Watcher, id: nat): (r: Watcher)
    ensures r.live == w.live - {id}
    ensures r.strayRemovals == if id in w.live then w.strayRemovals else w.strayRemovals + 1
    ensures r.(live := w.live, strayRemovals := w.strayRemovals) == w
  {
    if id in w.live then w.(live := w.live - {id}) else w.(strayRemovals := w.strayRemovals + 1)
  }

  /** One event, as the code handles it. */
  function Step(w: Watcher, e: Event): (r: Watcher)
    ensures r.refreshes == w.refreshes + (if e.Fire? && e.id in w.live then 1 else 0)
    ensures r.nextId == w.nextId + (if e.Changed? && w.monitor.Some? then 1 else 0)
    ensures e.Changed? && w.monitor.Some? ==> r.pending == Some(w.nextId) && w.nextId in r.live
    ensures !(e.Changed? && w.monitor.Some?) ==> r.live <= w.live
    ensures e.Disable? ==> r.pending.None? && r.monitor.None?
    ensures e.PathConfigured? ==> r.pending == w.pending && r.live == w.live
    ensures e.Fire? && e.id in w.live ==> e.id !in r.live
    ensures e.Fire? ==> r.pending == if e.id in w.live && !e.refreshRaised then None else w.pending
  {
    match e
    case PathConfigured(path, dirExists, monitorOk) =>
      // the old monitor is cancelled; the slot is left alone
      w.(monitor := if path != "" && dirExists && monitorOk then Some(path) else None)
    case Changed =>
      if w.monitor.None? then w
      else
        var w1 := if w.pending.Some? then RemoveSource(w, w.pending.value) else w;
        w1.(pending := Some(w1.nextId), live := w1.live + {w1.nextId}, nextId := w1.nextId + 1)
    case Fire(id, refreshRaised) =>
      if id !in w.live then w
      else
        // the callback returns SOURCE_REMOVE, or throws, which removes the source too;
        // the slot is cleared only after `_fillMenu` has returned normally
        var w1 := w.(live := w.live - {id}, refreshes := w.refreshes + 1);
        if refreshRaised then w1 else w1.(pending := None)
    case Disable =>
      var w1 := if w.pending.Some? then RemoveSource(w, w.pending.value) else w;
      w1.(pending := None, monitor := None)
  }

  function Run(w: Watcher, events: seq<Event>): Watcher
    decreases |events|
  {
    if |events| == 0 then w else Run(Step(w, events[0]), events[1..])
  }

  /** Every scheduled timeout is the one recorded in the slot. */
  ghost predicate Inv(w: Watcher) {
    && w.nextId > 0
    && (w.pending.Some? ==> 0 < w.pending.value < w.nextId)
    && (forall id :: id in w.live ==> w.pending == Some(id))
  }

  lemma InitialInv()
    ensures Inv(Initial)
  {
  }

  lemma StepKeepsInv(w: Watcher, e: Event)
    requires Inv(w)
    ensures Inv(Step(w, e))
  {
  }

  /** Under the invariant at most one refresh timeout is ever scheduled. */
  lemma AtMostOneTimer(w: Watcher)
    requires Inv(w)
    ensures |w.live| <= 1
    ensures w.live <= if w.pending.Some? then {w.pending.value} else {}
  {
    var s: set<nat> := if w.pending.Some? then {w.pending.value} else {};
    assert w.live <= s;
    assert |s| <= 1;
    SubsetSize(w.live, s);
  }

  lemma SubsetSize(a: set<nat>, b: set<nat>)
    requires a <= b
    ensures |a| <= |b|
  {
    assert b == a + (b - a);
  }

  lemma {:induction false} RunKeepsInv(w: Watcher, events: seq<Event>)
    requires Inv(w)
    ensures Inv(Run(w, events)) && |Run(w, events).live| <= 1
    decreases |events|
  {
    if |events| == 0 {
      AtMostOneTimer(w);
    } else {
      StepKeepsInv(w, events[0]);
      RunKeepsInv(Step(w, events[0]), events[1..]);
    }
  }

  /** A change on a watched directory replaces the pending timeout by a fresh one. */
  lemma ChangeReplacesTimer(w: Watcher)
    requires Inv(w) && w.monitor.Some?
    ensures var w' := Step(w, Changed);
            && w'.pending == Some(w.nextId)
            && w'.live == {w.nextId}
            && (w.pending.Some? ==> w.pending.value !in w'.live)
            && w'.refreshes == w.refreshes
  {
  }

  /** Only a timeout firing or `disable()` empties the slot; reconfiguring the
      path cancels the monitor but leaves the slot as it was. */
  lemma SlotClearedOnlyByFireOrDisable(w: Watcher, e: Event)
    requires w.pending.Some? && Step(w, e).pending.None?
    ensures e.Fire? || e.Disable?
  {
  }

  lemma PathConfiguredKeepsSlot(w: Watcher, path: string, dirExists: bool, monitorOk: bool)
    ensures var w' := Step(w, PathConfigured(path, dirExists, monitorOk));
            && w'.pending == w.pending && w'.live == w.live && w'.refreshes == w.refreshes
            && w'.monitor == (if path != "" && dirExists && monitorOk then Some(path) else None)
  {
  }

  /** After `disable()` nothing is scheduled or watched, so no refresh can follow. */
  lemma DisableStopsRefreshes(w: Watcher, id: nat, refreshRaised: bool)
    requires Inv(w)
    ensures var w' := Step(w, Disable);
            && w'.pending.None? && w'.live == {} && w'.monitor.None?
            && Step(w', Fire(id, refreshRaised)) == w'
            && Step(w', Changed) == w'
  {
  }

  /** `n` change notifications in a row. */
  function Changes(n: nat): (r: seq<Event>)
    ensures |r| == n && forall i :: 0 <= i < n ==> r[i] == Changed
  {
    seq(n, i => Changed)
  }

  /** A burst of changes leaves exactly one timeout, the one in the slot, and runs
      no refresh by itself. */
  lemma {:induction false} BurstLeavesOneTimer(w: Watcher, n: nat)
    requires Inv(w) && w.monitor.Some? && n >= 1
    ensures var w' := Run(w, Changes(n));
            && Inv(w')
            && w'.pending.Some? && w'.live == {w'.pending.value}
            && w'.refreshes == w.refreshes
            && w'.monitor == w.monitor
    decreases n
  {
    var w1 := Step(w, Changed);
    StepKeepsInv(w, Changed);
    assert Changes(n)[1..] == Changes(n - 1);
    if n > 1 {
      BurstLeavesOneTimer(w1, n - 1);
    }
  }

  /** N changes with no firing in between give one refresh when the timeout fires,
      and afterwards nothing is left to fire. */
  lemma BurstRefreshesOnce(w: Watcher, n: nat, refreshRaised: bool)
    requires Inv(w) && w.monitor.Some? && n >= 1
    ensures Run(w, Changes(n)).pending.Some?
    ensures var w' := Run(w, Changes(n));
            var w'' := Step(w', Fire(w'.pending.value, refreshRaised));
            && w''.refreshes == w.refreshes + 1
            && w''.live == {}
            && (!refreshRaised ==> w''.pending.None?)
            && forall id, raised :: Step(w'', Fire(id, raised)) == w''
  {
    BurstLeavesOneTimer(w, n);
  }

  function CountChanges(events: seq<Event>): nat
    decreases |events|
  {
    if |events| == 0 then 0 else (if events[0].Changed? then 1 else 0) + CountChanges(events[1..])
  }

  /** Every refresh consumes a timeout scheduled by a distinct change: over any run
      there are never more refreshes than change notifications. */
  lemma {:induction false} RefreshesBoundedByChanges(w: Watcher, events: seq<Event>)
    requires Inv(w)
    ensures Run(w, events).refreshes + |Run(w, events).live| <= w.refreshes + |w.live| + CountChanges(events)
    decreases |events|
  {
    if |events| > 0 {
      var w1 := Step(w, events[0]);
      StepKeepsInv(w, events[0]);
      AtMostOneTimer(w);
      AtMostOneTimer(w1);
      StepCost(w, events[0]);
      RefreshesBoundedByChanges(w1, events[1..]);
    }
  }

  /** One step adds at most one to `refreshes + |live|`, and only on a change. */
  lemma StepCost(w: Watcher, e: Event)
    requires Inv(w)
    ensures Step(w, e).refreshes + |Step(w, e).live| <= w.refreshes + |w.live| + (if e.Changed? then 1 else 0)
  {
    AtMostOneTimer(w);
    var w' := Step(w, e);
    match e
    case Fire(id, _) =>
      if id in w.live {
        assert w.live == {id};
        assert w'.live == {};
      }
    case Disable =>
      SubsetSize(w'.live, w.live);
    case Changed =>
      StepKeepsInv(w, e);
      AtMostOneTimer(w');
    case PathConfigured(_, _, _) =>
  }

  // ---------------------------------------------------------------------------
  // The slot after a refresh that throws

  /** As written: the watched directory disappears, the timeout's `_fillMenu`
      throws (`Menu.MissingDirectory`), the slot keeps the id of a timeout GLib has
      already removed, and `disable()` then removes an id that no longer exists. */
  lemma StaleSlotAfterFailedRefresh()
    ensures var w1 := Run(Initial, [PathConfigured("/scripts", true, true), Changed, Fire(1, true)]);
            && w1.pending == Some(1) && 1 !in w1.live
            && Step(w1, Disable).strayRemovals == 1
  {
    var w0 := Step(Initial, PathConfigured("/scripts", true, true));
    var w1 := Step(w0, Changed);
    assert w1.live == {1} && w1.pending == Some(1);
    var w2 := Step(w1, Fire(1, true));
    assert w2.pending == Some(1) && w2.live == {};
    assert Run(Initial, [PathConfigured("/scripts", true, true), Changed, Fire(1, true)]) == w2;
  }

  /** Corrected: the slot is cleared when the timeout fires, whether or not
      `_fillMenu` then throws (clearing `this._refreshTimeout` before calling it). */
  function StepGuarded(w: Watcher, e: Event): Watcher {
    match e
    case Fire(id, _) => Step(w, Fire(id, false))
    case _ => Step(w, e)
  }

  function RunGuarded(w: Watcher, events: seq<Event>): Watcher
    decreases |events|
  {
    if |events| == 0 then w else RunGuarded(StepGuarded(w, events[0]), events[1..])
  }

  /** The slot holds exactly the scheduled timeout, if any. */
  ghost predicate SlotExact(w: Watcher) {
    Inv(w) && (w.pending.Some? ==> w.pending.value in w.live)
  }

  lemma GuardedStepKeepsSlotExact(w: Watcher, e: Event)
    requires SlotExact(w)
    ensures SlotExact(StepGuarded(w, e))
    ensures StepGuarded(w, e).strayRemovals == w.strayRemovals
  {
  }

  /** With the correction no run ever removes a timeout that does not exist. */
  lemma {:induction false} GuardedRunHasNoStrayRemovals(w: Watcher, events: seq<Event>)
    requires SlotExact(w)
    ensures SlotExact(RunGuarded(w, events))
    ensures RunGuarded(w, events).strayRemovals == w.strayRemovals
    decreases |events|
  {
    if |events| > 0 {
      GuardedStepKeepsSlotExact(w, events[0]);
      GuardedRunHasNoStrayRemovals(StepGuarded(w, events[0]), events[1..]);
    }
  }
}

=== FILE: launch.dfy ===
/** What `_launchScript` (extension.js:198-230) and `_appendLog`
    (extension.js:49-60) produce once a launch has an outcome: the notification
    text, the log record and the log path. Spawning the process and draining its
    pipes are outside the model; their outcome is an input. */
module Launch {

  import opened Wrappers
  import opened Strings
  import opened Config

  /** The prefix GJS puts in front of a spawn error's message in `e.toString()`. */
  const SpawnErrorPrefix := "GLib.SpawnError: "

  const ExitCodeText := "completed with exit code: "

  /** How a launch ended: `spawnv` threw (`error` is `e.toString()`),
      `communicate_utf8_finish` threw inside the completion callback, or the
      process finished with its captured output and exit status. */
  datatype RunOutcome =
    | SpawnFailed(error: string)
    | ReadFailed
    | Finished(stdout: string, stderr: string, exitStatus: int)

  /** Where the log lives and what the notification is titled (`metadata.name`). */
  datatype Host = Host(home: string, extensionName: string)

  datatype Notification = Notification(title: string, body: string)

  datatype LogAppend = LogAppend(path: string, record: string)

  /** The sinks a launch feeds: at most one notification and one log append. */
  datatype Effects = Effects(notification: Option<Notification>, log: Option<LogAppend>)

  /** The argument vector handed to `spawnv`: the script's path and no arguments. */
  function Command(dir: string, script: string): (argv: seq<string>)
    ensures |argv| == 1
    ensures StartsWith(argv[0], dir) && EndsWith(argv[0], "/" + script)
    ensures |argv[0]| == |dir| + 1 + |script|
  {
    [dir + "/" + script]
  }

  /** The `[script]: ` prefix of every message. */
  function Tag(script: string): string {
    "[" + script + "]: "
  }

  /** The completion notification (extension.js:209-216): the output if there is
      any, else the error output, else the exit status. */
  function CompletionText(script: string, stdout: string, stderr: string, exitStatus: int): (r: string)
    ensures StartsWith(r, Tag(script))
    ensures stdout != "" ==> r[|Tag(script)|..] == stdout
    ensures stdout == "" && stderr != "" ==> r[|Tag(script)|..] == stderr
    ensures stdout == "" && stderr == "" ==> r[|Tag(script)|..] == ExitCodeText + IntToString(exitStatus)
  {
    Tag(script) + (if stdout != "" then stdout
                   else if stderr != "" then stderr
                   else ExitCodeText + IntToString(exitStatus))
  }

  /** When the process printed nothing, the exit status can be read back from the
      notification. */
  lemma ExitStatusReadBack(script: string, exitStatus: int)
    ensures var r := CompletionText(script, "", "", exitStatus);
            ParseInt(r[|Tag(script)| + |ExitCodeText|..]) == Some(exitStatus)
  {
    var r := CompletionText(script, "", "", exitStatus);
    assert r[|Tag(script)| + |ExitCodeText|..] == IntToString(exitStatus);
    IntToStringRoundTrip(exitStatus);
  }

  /** The spawn-failure notification (extension.js:225-228): the first
      `GLib.SpawnError: ` is cut out of the error text. */
  function SpawnFailureText(script: string, error: string): (r: string)
    ensures !Contains(error, SpawnErrorPrefix) ==> r == Tag(script) + error
    ensures Contains(error, SpawnErrorPrefix) ==>
              exists i: nat :: FirstOccurrence(error, SpawnErrorPrefix, i) &&
                r == Tag(script) + error[..i] + error[i + |SpawnErrorPrefix|..]
  {
    Tag(script) + ReplaceFirst(error, SpawnErrorPrefix, "")
  }

  /** For an error rendered the way GJS renders spawn errors, the notification
      carries the bare message. */
  lemma SpawnFailureShowsMessage(script: string, message: string)
    ensures SpawnFailureText(script, SpawnErrorPrefix + message) == Tag(script) + message
  {
    var error := SpawnErrorPrefix + message;
    assert StartsWith(error, SpawnErrorPrefix);
    ReplaceLeadingPattern(error, SpawnErrorPrefix, "");
    assert error[|SpawnErrorPrefix|..] == message;
  }

  /** `<home>/.<extension name>.log` (extension.js:50). */
  function LogPath(home: string, extensionName: string): (p: string)
    ensures StartsWith(p, home + "/.") && EndsWith(p, ".log")
    ensures |p| == |home| + |extensionName| + 6
    ensures p[|home| + 2..|p| - 4] == extensionName
  {
    home + "/." + extensionName + ".log"
  }

  /** The text one launch appends to the log (extension.js:56-58): a header line,
      the `STDOUT:` block and the `STDERR:` block. No newline is inserted between
      the output and the `STDERR:` label. */
  function LogRecord(script: string, date: string, stdout: string, stderr: string): (r: string)
    ensures StartsWith(r, "\n[" + script + "]: " + date + "\nSTDOUT:\n")
    ensures EndsWith(r, "STDERR:\n" + stderr)
    ensures |r| == |script| + |date| + |stdout| + |stderr| + 22
    ensures r[|script| + |date| + 14..|r| - |stderr| - 8] == stdout
  {
    ("\n[" + script + "]: " + date + "\n") + LogBody(stdout, stderr)
  }

  function LogBody(stdout: string, stderr: string): string {
    ("STDOUT:\n" + stdout) + ("STDERR:\n" + stderr)
  }

  datatype LogFields = LogFields(script: string, date: string, stdout: string, stderr: string)

  /** Reads a record back: the script up to the first `]: `, the date up to the
      first newline, then the body. */
  function ParseLogRecord(record: string): Option<LogFields> {
    if !StartsWith(record, "\n[") then None
    else match SplitAt(record[2..], "]: ")
      case None => None
      case Some((script, b)) =>
        match SplitAt(b, "\n")
        case None => None
        case Some((date, c)) =>
          match ParseLogBody(c)
          case None => None
          case Some((stdout, stderr)) => Some(LogFields(script, date, stdout, stderr))
  }

  /** Reads a body back: the output up to the first `STDERR:\n`, the error output
      to the end. */
  function ParseLogBody(body: string): Option<(string, string)> {
    if !StartsWith(body, "STDOUT:\n") then None
    else SplitAt(body[8..], "STDERR:\n")
  }

  lemma NoBracketNoSeparator(script: string)
    requires ']' !in script
    ensures !Contains(script + "]:", "]: ")
  {
    var s := script + "]:";
    forall j: nat | j + 3 <= |s|
      ensures !OccursAt(s, "]: ", j)
    {
      assert s[j] == script[j];
      assert script[j] in script;
      assert s[j..j + 3][0] == s[j];
    }
  }

  lemma LogBodyRoundTrip(stdout: string, stderr: string)
    requires !Contains(stdout + "STDERR:", "STDERR:\n")
    ensures ParseLogBody(LogBody(stdout, stderr)) == Some((stdout, stderr))
  {
    var body := LogBody(stdout, stderr);
    assert body[8..] == stdout + "STDERR:\n" + stderr;
    assert "STDERR:\n"[..7] == "STDERR:";
    SplitAtSeparator(stdout, "STDERR:\n", stderr);
  }

  lemma HeaderRoundTrip(script: string, date: string, body: string)
    requires ']' !in script
    requires '\n' !in date
    ensures var record := ("\n[" + script + "]: " + date + "\n") + body;
            && StartsWith(record, "\n[")
            && SplitAt(record[2..], "]: ") == Some((script, date + "\n" + body))
            && SplitAt(date + "\n" + body, "\n") == Some((date, body))
  {
    var record := ("\n[" + script + "]: " + date + "\n") + body;
    var b := date + "\n" + body;
    assert record[2..] == script + "]: " + b;
    NoBracketNoSeparator(script);
    assert "]: "[..2] == "]:";
    SplitAtSeparator(script, "]: ", b);
    FirstCharAbsent(date, "\n");
    assert date + "\n"[..0] == date;
    SplitAtSeparator(date, "\n", body);
  }

  /** A log record reads back as the fields it was written from, provided the
      script name has no `]`, the date no newline, and the output no `STDERR:\n`
      (stated over `stdout + "STDERR:"`, the shape `SplitAtSeparator` needs; the
      separator's only newline is its last character, so this is the same
      condition). */
  lemma LogRecordRoundTrip(script: string, date: string, stdout: string, stderr: string)
    requires ']' !in script
    requires '\n' !in date
    requires !Contains(stdout + "STDERR:", "STDERR:\n")
    ensures ParseLogRecord(LogRecord(script, date, stdout, stderr)) == Some(LogFields(script, date, stdout, stderr))
  {
    HeaderRoundTrip(script, date, LogBody(stdout, stderr));
    LogBodyRoundTrip(stdout, stderr);
  }

  /** What one launch hands to its sinks (extension.js:198-230). The configuration
      is the one read when the process completes; it is `None` once `disable()` has
      dropped the settings object (extension.js:418), and the completion callback
      then throws at its first `get_boolean` before notifying or logging. A spawn
      failure is reported from `_launchScript` itself, which reads no setting. */
  function LaunchEffects(settings: Option<Settings>, host: Host, date: string, script: string, outcome: RunOutcome): (r: Effects)
    ensures r.notification.Some? <==>
              outcome.SpawnFailed? || (outcome.Finished? && settings.Some? && settings.value.notify)
    ensures r.log.Some? <==> outcome.Finished? && settings.Some? && settings.value.log
    ensures r.notification.Some? ==> r.notification.value.title == host.extensionName
    ensures outcome.SpawnFailed? ==>
              r.notification.value.body == SpawnFailureText(script, outcome.error)
    ensures outcome.Finished? && settings.Some? && settings.value.notify ==>
              r.notification.value.body ==
                CompletionText(script, outcome.stdout, outcome.stderr, outcome.exitStatus)
    ensures outcome.Finished? && settings.Some? && settings.value.log ==>
              r.log.value == LogAppend(LogPath(host.home, host.extensionName),
                                       LogRecord(script, date, outcome.stdout, outcome.stderr))
  {
    match outcome
    case SpawnFailed(error) =>
      Effects(Some(Notification(host.extensionName, SpawnFailureText(script, error))), None)
    case ReadFailed =>
      Effects(None, None)
    case Finished(stdout, stderr, exitStatus) =>
      if settings.None? then Effects(None, None)
      else
        Effects(
          if settings.value.notify then
            Some(Notification(host.extensionName, CompletionText(script, stdout, stderr, exitStatus)))
          else None,
          if settings.value.log then
            Some(LogAppend(LogPath(host.home, host.extensionName), LogRecord(script, date, stdout, stderr)))
          else None)
  }

  /** A process that finishes after `disable()` leaves no trace: no notification
      and no log record, whatever it printed. */
  lemma CompletionAfterDisableIsLost(host: Host, date: string, script: string, stdout: string, stderr: string, exitStatus: int)
    ensures LaunchEffects(None, host, date, script, Finished(stdout, stderr, exitStatus)) == Effects(None, None)
  {
  }

  lemma CompletionExamples()
    ensures CompletionText("build.sh", "done", "", 0) == "[build.sh]: done"
    ensures CompletionText("build.sh", "", "oops", 1) == "[build.sh]: oops"
  {
  }
}

=== FILE: menu.dfy ===
/** The script menu: what `_fillMenu` (extension.js:101-155) derives for each script
    (base name, display name, icon) and how `_filterMenu` (extension.js:157-164)
    shows or hides entries. Widgets are replaced by the plain records they are
    built from; file existence is an oracle (the set of existing paths). */
module Menu {

  import opened Wrappers
  import opened Strings
  import opened Config
  import opened Catalogue

  /** Themed icon for a script without an image of its own and no default icon. */
  const Bullet := "pan-end-symbolic"

  /** The icon of a menu entry: an image file next to the script
      (`Gio.icon_new_for_string(path)`), the content-type icon of the script file
      (`script.get_icon()`), or a themed icon name. */
  datatype Icon = Custom(path: string) | FromShebang(script: string) | Named(name: string)

  /** One `scriptInfo` record with the visibility of its menu item. */
  datatype MenuEntry = MenuEntry(scriptName: string, displayName: string, icon: Icon, visible: bool)

  /** The script name with a trailing `.sh` removed (`replace(/\.sh$/, "")`). */
  function BaseName(scriptName: string): (r: string)
    ensures EndsWith(scriptName, ScriptSuffix) ==> r + ScriptSuffix == scriptName
    ensures !EndsWith(scriptName, ScriptSuffix) ==> r == scriptName
  {
    StripSuffix(scriptName, ScriptSuffix)
  }

  // ---------------------------------------------------------------------------
  // Display name

  /** `/\.[^\.]+$/` matches `s` from index `i`: a dot followed by at least one
      character and no further dot up to the end. */
  ghost predicate ExtensionAt(s: string, i: int) {
    0 <= i && i + 1 < |s| && s[i] == '.' && forall j :: i < j < |s| ==> s[j] != '.'
  }

  /** Index of the last dot in `s`. */
  function LastDot(s: string): (r: Option<nat>)
    ensures r.Some? ==> r.value < |s| && s[r.value] == '.'
    ensures r.Some? ==> forall j :: r.value < j < |s| ==> s[j] != '.'
    ensures r.None? ==> forall j :: 0 <= j < |s| ==> s[j] != '.'
  {
    if |s| == 0 then None
    else if s[|s| - 1] == '.' then Some(|s| - 1)
    else LastDot(s[..|s| - 1])
  }

  /** `s.replace(/\.[^\.]+$/, "")`: drops the last extension, if there is one. */
  function StripExtension(s: string): (r: string)
    ensures forall i :: ExtensionAt(s, i) ==> r == s[..i]
    ensures (forall i :: !ExtensionAt(s, i)) ==> r == s
  {
    match LastDot(s)
    case Some(i) => if i + 1 < |s| then assert ExtensionAt(s, i); s[..i] else s
    case None => s
  }

  /** The label of a menu entry (extension.js:134-136). */
  function DisplayName(strip: bool, scriptName: string): (r: string)
    ensures !strip ==> r == scriptName
    ensures strip ==> forall i :: ExtensionAt(scriptName, i) ==> r == scriptName[..i]
    ensures strip ==> (forall i :: !ExtensionAt(scriptName, i)) ==> r == scriptName
  {
    if strip then StripExtension(scriptName) else scriptName
  }

  /** For a script (a name ending in `.sh`) the stripped display name is its base
      name: only the final `.sh` goes, earlier dots stay. */
  lemma StrippedScriptNameIsBaseName(scriptName: string)
    requires EndsWith(scriptName, ScriptSuffix)
    ensures DisplayName(true, scriptName) == BaseName(scriptName)
  {
    var i := |scriptName| - 3;
    assert scriptName[i..] == ".sh";
    assert scriptName[i] == '.' && scriptName[i + 1] == 's' && scriptName[i + 2] == 'h';
    assert ExtensionAt(scriptName, i);
  }

  lemma DisplayNameExamples()
    ensures DisplayName(true, "deploy.sh") == "deploy"
    ensures DisplayName(true, "backup.tar.sh") == "backup.tar"
    ensures DisplayName(false, "backup.tar.sh") == "backup.tar.sh"
  {
    StrippedScriptNameIsBaseName("deploy.sh");
    StrippedScriptNameIsBaseName("backup.tar.sh");
  }

  // ---------------------------------------------------------------------------
  // Icon

  /** The path of a sibling image `<dir>/<base><ext>`. */
  function ImagePath(dir: string, scriptName: string, ext: string): string {
    dir + "/" + BaseName(scriptName) + ext
  }

  lemma SvgAndPngPathsDiffer(dir: string, scriptName: string)
    ensures ImagePath(dir, scriptName, ".svg") != ImagePath(dir, scriptName, ".png")
  {
    var p := dir + "/" + BaseName(scriptName);
    assert (p + ".svg")[|p| + 1] == 's';
    assert (p + ".png")[|p| + 1] == 'p';
  }

  /** The icon chosen for a script (extension.js:116-132). */
  function ScriptIcon(settings: Settings, scriptName: string, existing: set<string>): (r: Icon)
    ensures var svg := ImagePath(settings.path, scriptName, ".svg");
            r == Custom(svg) <==> svg in existing
    ensures var svg := ImagePath(settings.path, scriptName, ".svg");
            var png := ImagePath(settings.path, scriptName, ".png");
            r == Custom(png) <==> svg !in existing && png in existing
    ensures var svg := ImagePath(settings.path, scriptName, ".svg");
            var png := ImagePath(settings.path, scriptName, ".png");
            r.FromShebang? <==> svg !in existing && png !in existing && settings.shebangIcon
    ensures r.FromShebang? ==> r.script == scriptName
    ensures var svg := ImagePath(settings.path, scriptName, ".svg");
            var png := ImagePath(settings.path, scriptName, ".png");
            r.Named? <==> svg !in existing && png !in existing && !settings.shebangIcon
    ensures r.Named? ==> r.name == if settings.defaultIcon != "" then settings.defaultIcon else Bullet
  {
    SvgAndPngPathsDiffer(settings.path, scriptName);
    var svg := ImagePath(settings.path, scriptName, ".svg");
    var png := ImagePath(settings.path, scriptName, ".png");
    if svg in existing then Custom(svg)
    else if png in existing then Custom(png)
    else if settings.shebangIcon then FromShebang(scriptName)
    else Named(if settings.defaultIcon != "" then settings.defaultIcon else Bullet)
  }

  /** One rung of the icon priority ladder. */
  datatype Candidate = Candidate(applies: bool, icon: Icon)

  /** The icon of the first rung that applies, or `fallback`. */
  function FirstApplicable(ladder: seq<Candidate>, fallback: Icon): (r: Icon)
    ensures forall i :: 0 <= i < |ladder| && ladder[i].applies && (forall j :: 0 <= j < i ==> !ladder[j].applies) ==>
              r == ladder[i].icon
    ensures (forall i :: 0 <= i < |ladder| ==> !ladder[i].applies) ==> r == fallback
  {
    if |ladder| == 0 then fallback
    else if ladder[0].applies then ladder[0].icon
    else FirstApplicable(ladder[1..], fallback)
  }

  /** The fixed priority order: svg image, png image, content-type icon, configured
      default icon; `pan-end-symbolic` when none applies. */
  function IconLadder(settings: Settings, scriptName: string, existing: set<string>): seq<Candidate> {
    var svg := ImagePath(settings.path, scriptName, ".svg");
    var png := ImagePath(settings.path, scriptName, ".png");
    [ Candidate(svg in existing, Custom(svg)),
      Candidate(png in existing, Custom(png)),
      Candidate(settings.shebangIcon, FromShebang(scriptName)),
      Candidate(settings.defaultIcon != "", Named(settings.defaultIcon)) ]
  }

  /** The chosen icon is the first applicable rung of the priority ladder. */
  lemma ScriptIconFollowsLadder(settings: Settings, scriptName: string, existing: set<string>)
    ensures ScriptIcon(settings, scriptName, existing)
            == FirstApplicable(IconLadder(settings, scriptName, existing), Named(Bullet))
  {
    var ladder := IconLadder(settings, scriptName, existing);
    var fallback := Named(Bullet);
    var l1 := ladder[1..];
    var l2 := l1[1..];
    var l3 := l2[1..];
    assert l3[1..] == [];
    assert FirstApplicable(l3, fallback) == if ladder[3].applies then ladder[3].icon else fallback;
    assert FirstApplicable(l2, fallback) == if ladder[2].applies then ladder[2].icon else FirstApplicable(l3, fallback);
    assert FirstApplicable(l1, fallback) == if ladder[1].applies then ladder[1].icon else FirstApplicable(l2, fallback);
  }

  // ---------------------------------------------------------------------------
  // Filling the menu

  /** Why `_fillMenu` stopped with an exception: `_getScripts` returned `undefined`
      and `.forEach` was called on it, or the enumeration itself raised. */
  datatype FillFailure = MissingDirectory | EnumerationError

  /** The state `_fillMenu` leaves behind: `this._path`, `this._allScripts` (one
      entry per menu item, in menu order) and the exception it ended with, if any. */
  datatype FillOutcome = FillOutcome(path: string, entries: seq<MenuEntry>, failure: Option<FillFailure>)

  /** The record and menu item built for one script; a new item is visible. */
  function EntryFor(settings: Settings, existing: set<string>, script: DirEntry): MenuEntry {
    MenuEntry(script.name, DisplayName(settings.strip, script.name),
              ScriptIcon(settings, script.name, existing), true)
  }

  /** `_fillMenu()` with the configuration of the moment and the filesystem oracle. */
  function FillMenu(settings: Settings, fs: FileSystem, key: string -> seq<int>): (r: FillOutcome)
    ensures r.path == settings.path
    ensures settings.path == "" ==> r.entries == [] && r.failure == None
    ensures r.failure == Some(MissingDirectory) <==> settings.path != "" && settings.path !in fs.existing
    ensures r.failure == Some(EnumerationError) <==>
              settings.path != "" && settings.path in fs.existing && Enumerate(fs, settings.path).Failed?
    ensures r.failure.Some? ==> r.entries == []
    ensures r.failure.None? && settings.path != "" ==>
              var scripts := GetScripts(fs, settings.path, key).entries;
              && |r.entries| == |scripts|
              && forall i :: 0 <= i < |scripts| ==>
                   && r.entries[i].scriptName == scripts[i].name
                   && r.entries[i].displayName == DisplayName(settings.strip, scripts[i].name)
                   && r.entries[i].icon == ScriptIcon(settings, scripts[i].name, fs.existing)
                   && r.entries[i].visible
  {
    if settings.path == "" then FillOutcome(settings.path, [], None)
    else match GetScripts(fs, settings.path, key)
      case Undefined => FillOutcome(settings.path, [], Some(MissingDirectory))
      case Raised => FillOutcome(settings.path, [], Some(EnumerationError))
      case Scripts(scripts) =>
        FillOutcome(settings.path,
                    seq(|scripts|, i requires 0 <= i < |scripts| => EntryFor(settings, fs.existing, scripts[i])),
                    None)
  }

  /** Every entry of a successful fill names a script file of the directory. */
  lemma FilledEntriesAreScripts(settings: Settings, fs: FileSystem, key: string -> seq<int>)
    requires settings.path != "" && settings.path in fs.existing
    requires Enumerate(fs, settings.path).Listed?
    ensures var entries := FillMenu(settings, fs, key).entries;
            forall i :: 0 <= i < |entries| ==>
              exists e :: e in Enumerate(fs, settings.path).entries && IsScript(e) && e.name == entries[i].scriptName
  {
    var scripts := GetScripts(fs, settings.path, key).entries;
    var entries := FillMenu(settings, fs, key).entries;
    forall i | 0 <= i < |entries|
      ensures exists e :: e in Enumerate(fs, settings.path).entries && IsScript(e) && e.name == entries[i].scriptName
    {
      assert scripts[i] in multiset(scripts);
      assert scripts[i] in multiset(Enumerate(fs, settings.path).entries);
    }
  }

  /** Every script file of the directory gets an entry in a successful fill. */
  lemma EveryScriptIsFilled(settings: Settings, fs: FileSystem, key: string -> seq<int>, e: DirEntry)
    requires settings.path != "" && settings.path in fs.existing
    requires Enumerate(fs, settings.path).Listed?
    requires e in Enumerate(fs, settings.path).entries && IsScript(e)
    ensures exists i :: 0 <= i < |FillMenu(settings, fs, key).entries|
                        && FillMenu(settings, fs, key).entries[i].scriptName == e.name
  {
    var scripts := GetScripts(fs, settings.path, key).entries;
    assert e in multiset(Enumerate(fs, settings.path).entries);
    assert e in multiset(scripts);
    var i :| 0 <= i < |scripts| && scripts[i] == e;
    assert FillMenu(settings, fs, key).entries[i].scriptName == e.name;
  }

  /** The entries of a successful fill are in name order. */
  lemma FilledEntriesInNameOrder(settings: Settings, fs: FileSystem, key: string -> seq<int>)
    requires settings.path != "" && settings.path in fs.existing
    requires Enumerate(fs, settings.path).Listed?
    ensures var entries := FillMenu(settings, fs, key).entries;
            forall i, j :: 0 <= i < j < |entries| ==>
              Collation.KeyLe(key(entries[i].scriptName), key(entries[j].scriptName))
  {
  }

  // ---------------------------------------------------------------------------
  // Search filter

  /** `_filterMenu()` with the search entry's text `query`: each item stays visible
      exactly when its lower-cased display name contains the lower-cased query. */
  function FilterMenu(entries: seq<MenuEntry>, query: string): (r: seq<MenuEntry>)
    ensures |r| == |entries|
    ensures forall i :: 0 <= i < |r| ==>
              && r[i].scriptName == entries[i].scriptName
              && r[i].displayName == entries[i].displayName
              && r[i].icon == entries[i].icon
    ensures forall i :: 0 <= i < |r| ==>
              (r[i].visible <==> Contains(Lower(entries[i].displayName), Lower(query)))
  {
    seq(|entries|, i requires 0 <= i < |entries| =>
          entries[i].(visible := Includes(Lower(entries[i].displayName), Lower(query))))
  }

  /** An empty search shows every entry. */
  lemma EmptyQueryShowsAll(entries: seq<MenuEntry>)
    ensures forall i :: 0 <= i < |entries| ==> FilterMenu(entries, "")[i].visible
  {
    forall i | 0 <= i < |entries|
      ensures FilterMenu(entries, "")[i].visible
    {
      ContainsEmpty(Lower(entries[i].displayName));
    }
  }

  /** Filtering forgets earlier searches: only the latest query decides. */
  lemma LatestQueryDecides(entries: seq<MenuEntry>, q1: string, q2: string)
    ensures FilterMenu(FilterMenu(entries, q1), q2) == FilterMenu(entries, q2)
  {
  }

  /** Searching ignores the case of the query. */
  lemma QueryCaseIgnored(entries: seq<MenuEntry>, query: string)
    ensures FilterMenu(entries, Lower(query)) == FilterMenu(entries, query)
  {
    LowerIdempotent(query);
  }

  /** Refining the query only hides entries: whatever matches the longer query
      matches any query it contains. */
  lemma RefiningHides(entries: seq<MenuEntry>, shorter: string, longer: string)
    requires Contains(Lower(longer), Lower(shorter))
    ensures forall i :: 0 <= i < |entries| && FilterMenu(entries, longer)[i].visible ==>
              FilterMenu(entries, shorter)[i].visible
  {
    forall i | 0 <= i < |entries| && FilterMenu(entries, longer)[i].visible
      ensures FilterMenu(entries, shorter)[i].visible
    {
      ContainsTransitive(Lower(entries[i].displayName), Lower(longer), Lower(shorter));
    }
  }

  lemma FilterExample()
    ensures var entries := [ MenuEntry("deploy.sh", "deploy", Named(Bullet), true),
                             MenuEntry("backup.sh", "backup", Named(Bullet), true),
                             MenuEntry("report.sh", "report", Named(Bullet), true) ];
            var r := FilterMenu(entries, "dep");
            r[0].visible && !r[1].visible && !r[2].visible
  {
    assert Lower("dep") == "dep";
    assert Lower("deploy") == "deploy";
    assert OccursAt("deploy", "dep", 0);
    FirstCharAbsent(Lower("backup"), "dep");
    FirstCharAbsent(Lower("report"), "dep");
  }
}

=== FILE: strings.dfy ===
/** The JavaScript string operations the extension relies on, stated over `seq<char>`:
    `endsWith`/`startsWith`, `includes`, `replace` with a string pattern (first
    occurrence only), ASCII `toLowerCase`, `trim`, and the decimal rendering of an
    integer in a template literal. */
module Strings {

  import opened Wrappers

  predicate StartsWith(s: string, prefix: string) {
    |prefix| <= |s| && s[..|prefix|] == prefix
  }

  predicate EndsWith(s: string, suffix: string) {
    |suffix| <= |s| && s[|s| - |suffix|..] == suffix
  }

  /** `s` with one trailing `suffix` removed, if it has one (`replace(/suffix$/, "")`). */
  function StripSuffix(s: string, suffix: string): (r: string)
    ensures EndsWith(s, suffix) ==> r + suffix == s
    ensures !EndsWith(s, suffix) ==> r == s
  {
    if EndsWith(s, suffix) then s[..|s| - |suffix|] else s
  }

  // ---------------------------------------------------------------------------
  // Substring search

  /** `pat` occurs in `s` starting at index `i`. */
  predicate OccursAt(s: string, pat: string, i: nat) {
    i + |pat| <= |s| && s[i..i + |pat|] == pat
  }

  /** `i` is the leftmost index at which `pat` occurs in `s`. */
  ghost predicate FirstOccurrence(s: string, pat: string, i: nat) {
    OccursAt(s, pat, i) && forall j: nat :: j < i ==> !OccursAt(s, pat, j)
  }

  /** Specification of `s.includes(pat)`. */
  ghost predicate Contains(s: string, pat: string) {
    exists i: nat :: OccursAt(s, pat, i)
  }

  /** Leftmost occurrence of `pat` in `s` at or after `from`. */
  function IndexFrom(s: string, pat: string, from: nat): (r: Option<nat>)
    decreases |s| - from
    ensures r.Some? ==> from <= r.value && OccursAt(s, pat, r.value)
    ensures r.Some? ==> forall j: nat :: from <= j < r.value ==> !OccursAt(s, pat, j)
    ensures r.None? ==> forall j: nat :: from <= j ==> !OccursAt(s, pat, j)
  {
    if from + |pat| > |s| then None
    else if OccursAt(s, pat, from) then Some(from)
    else IndexFrom(s, pat, from + 1)
  }

  /** `s.indexOf(pat)`, with "not found" as `None`. */
  function IndexOf(s: string, pat: string): (r: Option<nat>)
    ensures r.Some? ==> FirstOccurrence(s, pat, r.value)
    ensures r.None? <==> !Contains(s, pat)
  {
    IndexFrom(s, pat, 0)
  }

  /** `s.includes(pat)`. */
  function Includes(s: string, pat: string): (b: bool)
    ensures b <==> Contains(s, pat)
  {
    IndexOf(s, pat).Some?
  }

  /** `s.replace(pat, with)` for a string pattern: only the first occurrence is replaced. */
  function ReplaceFirst(s: string, pat: string, with: string): (r: string)
    ensures !Contains(s, pat) ==> r == s
    ensures Contains(s, pat) ==>
              exists i: nat :: FirstOccurrence(s, pat, i) && r == s[..i] + with + s[i + |pat|..]
  {
    match IndexOf(s, pat)
    case None => s
    case Some(i) => s[..i] + with + s[i + |pat|..]
  }

  /** When `s` starts with `pat`, replacing the first occurrence drops exactly that prefix. */
  lemma ReplaceLeadingPattern(s: string, pat: string, with: string)
    requires StartsWith(s, pat)
    ensures ReplaceFirst(s, pat, with) == with + s[|pat|..]
  {
    assert OccursAt(s, pat, 0);
    var i := IndexOf(s, pat).value;
    assert i == 0;
  }

  /** If `pat` does not occur within `a + pat[..|pat|-1]`, the first occurrence of
      `pat` in `a + pat + b` is the one right after `a`. */
  lemma {:induction false} SeparatorFound(a: string, pat: string, b: string)
    requires |pat| > 0
    requires !Contains(a + pat[..|pat| - 1], pat)
    ensures IndexOf(a + pat + b, pat) == Some(|a|)
  {
    var s := a + pat + b;
    var t := a + pat[..|pat| - 1];
    assert s[|a|..|a| + |pat|] == pat;
    assert OccursAt(s, pat, |a|);
    assert t == s[..|t|];
    forall j: nat | j + |pat| <= |t| && OccursAt(s, pat, j)
      ensures OccursAt(t, pat, j)
    {
      assert forall k :: j <= k < j + |pat| ==> s[k] == t[k];
      assert s[j..j + |pat|] == t[j..j + |pat|];
    }
    var r := IndexOf(s, pat);
    assert r.value == |a|;
  }

  /** `s` split around the first occurrence of `sep`. */
  function SplitAt(s: string, sep: string): (r: Option<(string, string)>)
    ensures r.None? <==> !Contains(s, sep)
    ensures r.Some? ==> s == r.value.0 + sep + r.value.1
    ensures r.Some? && |sep| > 0 ==> !Contains(r.value.0, sep)
  {
    match IndexOf(s, sep)
    case None => None
    case Some(i) =>
      assert s == s[..i] + sep + s[i + |sep|..];
      assert forall j: nat :: OccursAt(s[..i], sep, j) ==> OccursAt(s, sep, j) && j + |sep| <= i;
      Some((s[..i], s[i + |sep|..]))
  }

  /** Splitting `a + sep + b` finds the `sep` right after `a` when none occurs
      earlier, even overlapping its start. */
  lemma SplitAtSeparator(a: string, sep: string, b: string)
    requires |sep| > 0
    requires !Contains(a + sep[..|sep| - 1], sep)
    ensures SplitAt(a + sep + b, sep) == Some((a, b))
  {
    var s := a + sep + b;
    SeparatorFound(a, sep, b);
    assert s[..|a|] == a;
    assert s[|a| + |sep|..] == b;
  }

  /** Occurrence is transitive: a pattern found inside a found string is found. */
  lemma OccursInside(s: string, t: string, u: string, i: nat, j: nat)
    requires OccursAt(s, t, i) && OccursAt(t, u, j)
    ensures OccursAt(s, u, i + j)
  {
    assert forall k :: 0 <= k < |t| ==> t[k] == s[i + k];
    assert forall k :: i + j <= k < i + j + |u| ==> s[k] == u[k - i - j];
    assert s[i + j..i + j + |u|] == u;
  }

  lemma ContainsTransitive(s: string, t: string, u: string)
    requires Contains(s, t) && Contains(t, u)
    ensures Contains(s, u)
  {
    var i: nat :| OccursAt(s, t, i);
    var j: nat :| OccursAt(t, u, j);
    OccursInside(s, t, u, i, j);
  }

  /** A pattern whose first character does not occur in `s` is not contained in it. */
  lemma FirstCharAbsent(s: string, pat: string)
    requires |pat| > 0 && pat[0] !in s
    ensures !Contains(s, pat)
  {
    forall i: nat | i + |pat| <= |s|
      ensures !OccursAt(s, pat, i)
    {
      assert s[i] in s;
      assert s[i..i + |pat|][0] == s[i] != pat[0];
    }
  }

  lemma ContainsEmpty(s: string)
    ensures Contains(s, "")
  {
    assert OccursAt(s, "", 0);
  }

  // ---------------------------------------------------------------------------
  // Case folding

  /** `toLowerCase` on one character, restricted to the ASCII letters. */
  function LowerChar(c: char): (d: char)
    ensures 'A' <= c <= 'Z' ==> 'a' <= d <= 'z' && d as int - c as int == 32
    ensures !('A' <= c <= 'Z') ==> d == c
  {
    if 'A' <= c <= 'Z' then (c as int + 32) as char else c
  }

  function Lower(s: string): (r: string)
    ensures |r| == |s|
    ensures forall i :: 0 <= i < |s| ==> r[i] == LowerChar(s[i])
    ensures forall i :: 0 <= i < |r| ==> !('A' <= r[i] <= 'Z')
    ensures (forall i :: 0 <= i < |s| ==> !('A' <= s[i] <= 'Z')) ==> r == s
  {
    seq(|s|, i requires 0 <= i < |s| => LowerChar(s[i]))
  }

  lemma LowerIdempotent(s: string)
    ensures Lower(Lower(s)) == Lower(s)
  {
    assert forall i :: 0 <= i < |s| ==> Lower(Lower(s))[i] == Lower(s)[i];
  }

  // ---------------------------------------------------------------------------
  // Whitespace trimming

  /** The characters `String.prototype.trim` removes: ECMAScript WhiteSpace and
      LineTerminator code points. */
  predicate IsJsWhitespace(c: char) {
    || c == '\t' || c == '\n' || c == '\U{000B}' || c == '\U{000C}' || c == '\r'
    || c == ' ' || c == '\U{00A0}' || c == '\U{1680}'
    || ('\U{2000}' <= c <= '\U{200A}')
    || c == '\U{2028}' || c == '\U{2029}' || c == '\U{202F}' || c == '\U{205F}'
    || c == '\U{3000}' || c == '\U{FEFF}'
  }

  function TrimStart(s: string): (r: string)
    ensures |r| <= |s| && r == s[|s| - |r|..]
    ensures forall i :: 0 <= i < |s| - |r| ==> IsJsWhitespace(s[i])
    ensures |r| > 0 ==> !IsJsWhitespace(r[0])
  {
    if |s| > 0 && IsJsWhitespace(s[0]) then TrimStart(s[1..]) else s
  }

  function TrimEnd(s: string): (r: string)
    ensures |r| <= |s| && r == s[..|r|]
    ensures forall i :: |r| <= i < |s| ==> IsJsWhitespace(s[i])
    ensures |r| > 0 ==> !IsJsWhitespace(r[|r| - 1])
  {
    if |s| > 0 && IsJsWhitespace(s[|s| - 1]) then TrimEnd(s[..|s| - 1]) else s
  }

  /** `s.trim()`: the slice of `s` left after whitespace is taken off both ends. */
  function Trim(s: string): (r: string)
    ensures |r| > 0 ==> !IsJsWhitespace(r[0]) && !IsJsWhitespace(r[|r| - 1])
    ensures exists i: nat :: TrimmedAt(s, r, i)
  {
    var t := TrimStart(s);
    var r := TrimEnd(t);
    TrimEndOfTrimStart(s, t, r);
    assert |r| > 0 ==> r[0] == t[0];
    r
  }

  /** Taking whitespace off the end of what is left after taking it off the start
      leaves a slice of `s` with only whitespace around it. */
  lemma TrimEndOfTrimStart(s: string, t: string, r: string)
    requires |t| <= |s| && t == s[|s| - |t|..]
    requires forall k :: 0 <= k < |s| - |t| ==> IsJsWhitespace(s[k])
    requires |r| <= |t| && r == t[..|r|]
    requires forall k :: |r| <= k < |t| ==> IsJsWhitespace(t[k])
    ensures TrimmedAt(s, r, |s| - |t|)
  {
    var i := |s| - |t|;
    assert r == s[i..i + |r|];
    forall k | i + |r| <= k < |s|
      ensures IsJsWhitespace(s[k])
    {
      assert s[k] == t[k - i];
    }
  }

  /** `r` is the slice of `s` at `i` with only whitespace before and after it. */
  ghost predicate TrimmedAt(s: string, r: string, i: nat) {
    && i + |r| <= |s| && r == s[i..i + |r|]
    && (forall k :: 0 <= k < i ==> IsJsWhitespace(s[k]))
    && (forall k :: i + |r| <= k < |s| ==> IsJsWhitespace(s[k]))
  }

  /** `s.trim()` is empty exactly when every character of `s` is whitespace. */
  lemma TrimEmptyIffBlank(s: string)
    ensures Trim(s) == "" <==> forall i :: 0 <= i < |s| ==> IsJsWhitespace(s[i])
  {
    var t := TrimStart(s);
    if Trim(s) == "" {
      assert |t| == 0;
    }
    assert |t| > 0 ==> t[0] == s[|s| - |t|];
  }

  // ---------------------------------------------------------------------------
  // Decimal rendering of integers

  predicate IsDigit(c: char) {
    '0' <= c <= '9'
  }

  function DigitChar(d: nat): (c: char)
    requires d < 10
    ensures IsDigit(c) && c as int - '0' as int == d
  {
    ('0' as int + d) as char
  }

  function DigitValue(c: char): nat
    requires IsDigit(c)
  {
    c as int - '0' as int
  }

  /** The decimal digits of `n`, most significant first, without leading zeros. */
  function NatToString(n: nat): (r: string)
    ensures |r| > 0 && forall i :: 0 <= i < |r| ==> IsDigit(r[i])
    ensures r[0] == '0' ==> n == 0
  {
    if n < 10 then [DigitChar(n)] else NatToString(n / 10) + [DigitChar(n % 10)]
  }

  /** `${n}` for an integer `n`. */
  function IntToString(n: int): (r: string)
    ensures n < 0 <==> |r| > 0 && r[0] == '-'
    ensures n < 0 ==> |r| > 1 && forall i :: 1 <= i < |r| ==> IsDigit(r[i])
    ensures n >= 0 ==> |r| > 0 && forall i :: 0 <= i < |r| ==> IsDigit(r[i])
    ensures n >= 0 && r[0] == '0' ==> n == 0
    ensures n < 0 ==> r[1] != '0'
  {
    if n < 0 then "-" + NatToString(-n) else NatToString(n)
  }

  /** The value of a string of decimal digits. */
  function DigitsValue(s: string): nat
    requires forall i :: 0 <= i < |s| ==> IsDigit(s[i])
  {
    if |s| == 0 then 0 else DigitsValue(s[..|s| - 1]) * 10 + DigitValue(s[|s| - 1])
  }

  /** Reads back a decimal integer with an optional leading minus sign. */
  function ParseInt(s: string): Option<int> {
    if |s| > 0 && s[0] == '-' then
      if |s| > 1 && forall i :: 1 <= i < |s| ==> IsDigit(s[i]) then Some(0 - DigitsValue(s[1..]) as int) else None
    else if |s| > 0 && forall i :: 0 <= i < |s| ==> IsDigit(s[i]) then Some(DigitsValue(s))
    else None
  }

  lemma {:induction false} NatToStringValue(n: nat)
    ensures DigitsValue(NatToString(n)) == n
  {
    if n >= 10 {
      NatToStringValue(n / 10);
      var r := NatToString(n);
      assert r[..|r| - 1] == NatToString(n / 10);
    }
  }

  /** Rendering an integer and reading it back gives the integer. */
  lemma IntToStringRoundTrip(n: int)
    ensures ParseInt(IntToString(n)) == Some(n)
  {
    var s := IntToString(n);
    if n < 0 {
      var t := NatToString(-n);
      NatToStringValue(-n);
      assert s == "-" + t;
      assert s[1..] == t;
      assert forall i :: 1 <= i < |s| ==> IsDigit(s[i]) by {
        forall i | 1 <= i < |s|
          ensures IsDigit(s[i])
        {
          assert s[i] == t[i - 1];
        }
      }
      assert ParseInt(s) == Some(0 - DigitsValue(t) as int);
    } else {
      NatToStringValue(n);
      assert s[0] != '-';
    }
  }
}

=== FILE: topicon.dfy ===
/** The top-panel icon (`_getIcon`, extension.js:233-262): the built-in terminal
    icon unless a custom icon is enabled and configured; a configured value that
    looks like a file path is used only if that file exists. */
module TopIcon {

  import opened Wrappers
  import opened Strings
  import opened Config

  const DefaultTopIcon := "utilities-terminal-symbolic"

  /** A `Gio.ThemedIcon` by name, or the icon `Gio.icon_new_for_string` makes of a
      file path. */
  datatype PanelIcon = Themed(name: string) | FromString(description: string)

  /** The test that tells a file path from a themed icon name (extension.js:244). */
  predicate LooksLikeFile(name: string) {
    StartsWith(name, "/") || EndsWith(name, ".svg") || EndsWith(name, ".png")
  }

  /** Whether the configured custom icon applies at all: settings are loaded, the
      feature is on and the name is not blank. */
  predicate CustomIconConfigured(settings: Option<Settings>) {
    && settings.Some?
    && settings.value.useCustomTopIcon
    && Trim(settings.value.topIconName) != ""
  }

  /** `_getIcon()`. `settings` is `None` before the settings object is loaded;
      `existing` answers `query_exists` for a path. */
  function GetIcon(settings: Option<Settings>, existing: set<string>): (r: PanelIcon)
    ensures !CustomIconConfigured(settings) ==> r == Themed(DefaultTopIcon)
    ensures CustomIconConfigured(settings) && !LooksLikeFile(settings.value.topIconName) ==>
              r == Themed(settings.value.topIconName)
    ensures CustomIconConfigured(settings) && LooksLikeFile(settings.value.topIconName) ==>
              (r.FromString? <==> settings.value.topIconName in existing)
    ensures CustomIconConfigured(settings) && LooksLikeFile(settings.value.topIconName) ==>
              (settings.value.topIconName !in existing ==> r == Themed(DefaultTopIcon))
    ensures r.FromString? ==> CustomIconConfigured(settings) && r.description == settings.value.topIconName
    ensures r.FromString? || r.name == DefaultTopIcon || r.name == settings.value.topIconName
  {
    if settings.None? || !settings.value.useCustomTopIcon then Themed(DefaultTopIcon)
    else
      var name := settings.value.topIconName;
      if name == "" || Trim(name) == "" then Themed(DefaultTopIcon)
      else if LooksLikeFile(name) then
        if name in existing then FromString(name) else Themed(DefaultTopIcon)
      else Themed(name)
  }

  /** A name made only of whitespace keeps the default icon, the setting being on
      or not. */
  lemma BlankNameKeepsDefault(s: Settings, existing: set<string>)
    requires forall i :: 0 <= i < |s.topIconName| ==> IsJsWhitespace(s.topIconName[i])
    ensures GetIcon(Some(s), existing) == Themed(DefaultTopIcon)
  {
    TrimEmptyIffBlank(s.topIconName);
  }

  /** A themed name is used as configured: surrounding whitespace only matters to
      the blank test and is never stripped from the name itself. */
  lemma ThemedNameUsedUntrimmed(s: Settings, existing: set<string>, k: nat)
    requires s.useCustomTopIcon && !LooksLikeFile(s.topIconName)
    requires k < |s.topIconName| && !IsJsWhitespace(s.topIconName[k])
    ensures GetIcon(Some(s), existing) == Themed(s.topIconName)
  {
    TrimEmptyIffBlank(s.topIconName);
  }

  /** A file-like name whose file is missing falls back to the default icon. */
  lemma MissingIconFileFallsBack(s: Settings, existing: set<string>)
    requires s.useCustomTopIcon && Trim(s.topIconName) != ""
    requires LooksLikeFile(s.topIconName) && s.topIconName !in existing
    ensures GetIcon(Some(s), existing) == Themed(DefaultTopIcon)
  {
  }

  /** A file-like name whose file exists is loaded from that file. */
  lemma ExistingIconFileIsUsed(s: Settings, existing: set<string>)
    requires s.useCustomTopIcon && Trim(s.topIconName) != ""
    requires LooksLikeFile(s.topIconName) && s.topIconName in existing
    ensures GetIcon(Some(s), existing) == FromString(s.topIconName)
  {
  }
}

=== FILE: wrappers.dfy ===
/** The optional value used wherever the extension can yield "no value". */
module Wrappers {

  datatype Option<+T> = None | Some(value: T)
}
